=== FILE: README.md ===
# WayPointDB AirTag integration: the monitor's core, in Dafny

The repository is a desktop tool that watches the Find My cache file
`Items.data`, notices when a tracked item's location changes, and forwards
the new fix to every WayPointDB server configured for the item's serial
number. This project models the non-interface part of its
`ItemsDataMonitor`, in both variants that the repository carries:

- `core.py`, the current monitor. A changed fix is appended to a pending
  queue kept per `serial::url/` key and saved to disk. Then everything
  queued under that key is posted as one batch to `url/api/v1/gps/batch`.
  Only HTTP 200 empties the queue.
- `AirTag-grabber.py`, the earlier monitor. It hands a single point to
  `requests.post` for the configured URL as it is, and keeps nothing when
  the post fails.

The model is functional. The monitor's state is an immutable record
(`Pending.State` and `Grabber.State`), and every method of the monitor is a
pure transition function over it. The outside world comes in as parameters:

- the decoded snapshot, or the read error;
- the configuration rows;
- the outcome of each call of `requests.post`, as a function from "n-th
  request ever handed to it" to `Status(code)` or `TransportError`;
- the current time.

The state also records `wire`, the requests handed to `requests.post` so
far, so that properties can speak about the traffic. A request the library
rejects before sending anything (a URL without an http(s) scheme) is still
on `wire`; its outcome is whatever the reply parameter says (see
"## Left out"). In `Pending.State`, `persisted` is
the content of the pending-data file. It changes only where the source
saves the queue.

Modules:

| module | file | models |
|---|---|---|
| `Wrappers` | wrappers.dfy | `Option`, `Result` |
| `Text` | text.dfy | `startswith`, `endswith`, `split("::", 1)` |
| `Items` | items.dfy | records, items, config rows, points, requests, outcomes (shared by both variants) |
| `Detector` | detector.dfy | `location_has_changed` (the same code in both variants) |
| `Pending` | pending.dfy | core.py's queue: keys, URLs, append-and-save, `attempt_send_pending` |
| `Core` | core.dfy | reading, `send_item_location`, fan-out, `check_items_data`, polling flag |
| `CoreProperties` | core_properties.dfy | properties that span several calls of core.py's monitor |
| `CoreScenario` | core_scenario.dfy | a worked run: first sighting, HTTP 500, same snapshot again |
| `Grabber` | grabber.dfy | AirTag-grabber.py's monitor and its properties |
| `Variants` | variants.dfy | where the two variants differ |

Some behaviours are reproduced exactly as the code has them:

- **Retries happen only on an append.** `attempt_send_pending` runs only
  right after a point is appended to the same key. A later cycle in which
  nothing changed and nothing is forced posts nothing, even while points
  wait in the queue (`CoreProperties.SameSnapshotDoesNotRetry`,
  `CoreScenario.FirstSightingThenServerError`). The only call of
  `attempt_send_pending` is at core.py:273, right after the append.
- **A delivered queue stays as a key with an empty list.** A successful
  delivery sets the key's list to `[]`; it does not remove the key.
- **Splitting the key needs more than "no `::` in the serial".** The serial
  must also not end in `:`. For serial `"A:"` the key `"A:::http://h/"`
  splits into `"A"` and `":http://h/"`. The batch is then posted to
  `":http://h/api/v1/gps/batch"`, which has no scheme
  (`Pending.ColonSerialMisroutes`). `requests.post` rejects such a URL
  with an exception, which core.py:320 catches. So the post always fails,
  nothing is stamped, and the key's queue only grows with every change.
  In the model the reply to that post is a parameter like any other; a
  stamp of `"A"` would need a 200 the program cannot get.
  `Pending.KeyRoundTrip` states the exact condition. Real Find My serials
  are alphanumeric, so this is recorded as a property rather than reported
  as a bug.
- **Time stamps.** core.py divides the raw time stamp by 1000 (milliseconds
  to seconds). AirTag-grabber.py copies it unchanged
  (`Variants.TimestampUnitsDiffer`).
- **Scheme check.** core.py tests the scheme on the URL *with* the batch
  path. `Pending.SchemeCheckSeesConfiguredUrl` shows that this accepts
  exactly the configured URLs that start with `http://` or `https://`.
  A rejected URL is only printed, not reported as an error.

## Model

| member | source | states |
|---|---|---|
| `Text.SplitFirst` | core.py:287-291 | `split("::", 1)` gives two parts exactly when the key contains `::`; then key == head + "::" + tail, and the head holds no `::` and does not end in `:` (the split is at the first separator) |
| `Text.SplitJoin` | core.py:287-291 | joining a head and a tail with `::`, then splitting at the first `::`, gives back both parts, provided the head has no `::` and does not end in `:` |
| `Text.JoinedHasSeparator` | core.py:287-289 | a key built as `serial::url` always splits into two parts, so the `len(parts) != 2` exit is never taken for keys built by `send_item_location` |
| `Items.FixOf` | core.py:171-180 | a missing `location` object reads as all zeros; a present latitude or time stamp is copied as it is |
| `Items.PointOf` | core.py:251-263 | the `gps_data` entry keeps the fix's time stamp, coordinates, accuracies and altitude, so that the fix can be recovered from it, and it has heading, heading accuracy, speed and speed accuracy 0 |
| `Items.MatchingRows` | core.py:214 | the matching rows are rows of the config, all with the item's serial; each row occurs in the result exactly as often as in the config when it matches, and not at all otherwise, so duplicate rows give duplicate sends; a row without a serial matches nothing |
| `Items.MatchingRowsAppend` | core.py:214 | the filter keeps config order: the matching rows of two concatenated configurations are those of the first followed by those of the second |
| `Detector.FindBySerial` | core.py:197 | returns the index of the first previous item with the serial, or none when no previous item has it |
| `Detector.LocationHasChanged` | core.py:193-206 | an unseen serial counts as changed; otherwise the item is compared with the first previous item of its serial and counts as changed exactly when both have a location and time stamp, latitude or longitude differ |
| `Detector.FirstSightingIsChanged` | core.py:197-199 | an item whose serial is not in the previous snapshot is always changed |
| `Detector.MissingLocationIsUnchanged` | core.py:200-201 | if the previous or the new item has no location, it is unchanged |
| `Detector.AccuracyOnlyChangeIsUnchanged` | core.py:202-206 | a fix that differs from the previous one only in horizontal accuracy, vertical accuracy or altitude is unchanged |
| `Detector.SameSnapshotIsUnchanged` | core.py:193-206 | when serials are distinct, every item of a snapshot compared with that same snapshot is unchanged |
| `Detector.RepeatedSerialComparesWithFirst` | core.py:197 | with a repeated serial, the later item is compared with the first one, so reading the same snapshot again can still report a change |
| `Pending.WithTrailingSlash` | core.py:243-244 | the normalised URL ends in `/`, extends the configured URL by at most one character, and equals it when it already ended in `/` |
| `Pending.WithTrailingSlashIdempotent` | core.py:293-294 | normalising a key's URL again, as `attempt_send_pending` does, changes nothing |
| `Pending.BatchUrlNoDoubledSlash` | core.py:292-295 | the final URL is the normalised URL followed by `api/v1/gps/batch`, with exactly one `/` between them |
| `Pending.SchemeCheckSeesConfiguredUrl` | core.py:245-249 | for a non-empty URL, the scheme test on the URL with path passes exactly when the configured URL starts with `http://` or `https://` |
| `Pending.KeyRoundTrip` | core.py:266-291 | splitting `serial::url/` at the first `::` gives back the serial and `url/`, provided the serial has no `::` and does not end in `:` |
| `Pending.ColonSerialMisroutes` | core.py:266-295 | the key of serial `"A:"` and URL `"http://h/"` splits into `"A"` and `":http://h/"`, and the batch URL built from that tail has no http(s) scheme |
| `Pending.Enqueue` | core.py:265-270 | exactly one point goes to the tail of the key's queue (a missing key is first created empty), all other queues are unchanged, the keys are the old ones plus this key, and the saved file equals the queue afterwards |
| `Pending.AttemptSendPending` | core.py:275-321 | a missing or empty queue sends nothing and changes nothing; so does a key without `::`. Otherwise one request is posted: the whole queue, in order, to the key's URL with the batch path. The set of keys never changes, so a delivered queue stays as a key with an empty list. On 200 that queue is empty, the other queues are untouched, the split serial is stamped and the file is saved. On any other status or an exception, queue, stamps and file are unchanged |
| `Pending.ClearIsIdempotent` | core.py:280-317 | once a batch was delivered, a second attempt on the same key posts nothing and changes nothing, whatever the server answers: an emptied queue takes the early exit |
| `Core.Initial` | core.py:81-96 | at start-up the queue is exactly the loaded file and the file is unchanged; nothing is seen, sent or stamped, and polling is off |
| `Core.ReadItem` | core.py:166-182 | every record gives an item with a location; its time stamp times 1000 is the raw time stamp (0 when absent); the other location fields, name, serial and battery take the record's values or the defaults `""`, `None`, 0.0 |
| `Core.ReadItems` | core.py:166-182 | one item per record, in record order |
| `Core.DestinationSkips` | core.py:232-249 | a row is skipped exactly when the item has no location, the server URL is missing or empty, or the URL does not start with `http://` or `https://`; otherwise the destination is the configured URL with one `/` appended when it did not end in one |
| `Core.SendItemLocation` | core.py:223-249 | a skipped row leaves the whole state unchanged; otherwise the file is saved after every change of the queue, and polling and the snapshot stay |
| `Core.SendItemLocationEffect` | core.py:251-321 | for a row that is not skipped, whatever the serial: exactly one request is posted, carrying the old queue plus the new point with the row's key, to the URL part of the key `serial::url/` split at its first `::`; other queues never change, the keys are the old ones plus this key, and the file equals the queue. On 200 the queue is empty and the serial part of the key is stamped; otherwise the queue ends with the new point and no stamp changes. When the serial has no `::` and does not end in `:`, the split gives back the serial and `url/`, so the request goes to `url/api/v1/gps/batch` and the item's serial is stamped |
| `Core.SendToRows` | core.py:220-221 | sending to several rows keeps polling and the snapshot, and the file is saved after every change of the queue |
| `Core.FanOut` | core.py:208-221 | as `Core.SendToRows`, over the rows matching the item's serial, in config order |
| `Core.Dispatch` | core.py:184-188 | as `Core.SendToRows`, over all items of the cycle |
| `Core.CheckItemsData` | core.py:138-191 | a failed read returns early and changes nothing, not even the previous snapshot; a successful read replaces the snapshot with the items read; the file is saved after every change of the queue |
| `Core.Poll` | core.py:129-133 | while polling is off, or when the read fails, a tick changes nothing; otherwise it runs one unforced cycle, which replaces the snapshot and keeps the polling flag and the file in step with the queue |
| `Core.StartPolling` | core.py:122-124 | polling is on and one unforced cycle has run at once: after a failed read only the flag changed, after a successful one the snapshot is the items read |
| `Core.StopPolling` | core.py:126-127 | polling is off and nothing else changed |
| `Core.ForceRefresh` | core.py:135-136 | a forced cycle runs whether or not polling is on and leaves the polling flag as it was; a failed read changes nothing, a successful one replaces the snapshot; the file is saved after every change of the queue |
| `CoreProperties.FanOutTargets` | core.py:208-221 | for a serial without `::` and not ending in `:`, a fan-out posts exactly one request per matching row that is not skipped, in config order, each to that row's URL with the batch path and with that row's key |
| `CoreProperties.FanOutWithoutMatchIsNoOp` | core.py:216-218 | an item with no matching row leaves the state unchanged |
| `CoreProperties.FanOutKeepsFailedPoints` | core.py:265-321 | when no delivery succeeds, every queue keeps its points and gains one copy of the item's point per matching row that is not skipped and has that key |
| `CoreProperties.FailedDeliveriesAccumulate` | core.py:265-321 | N appends to one key whose deliveries all fail leave exactly those N points queued after the earlier ones, in order, with one request each and no stamp; the file holds them |
| `CoreProperties.OneSuccessClearsAll` | core.py:305-317 | after N failed appends, the next append answered with 200 posts the earlier queue, the N points and the new one, in order, in one batch as the (N+1)-th request, whatever the serial; it empties the queue, stamps the serial part of the key and saves. For a serial without `::` that does not end in `:`, the batch goes to `url/api/v1/gps/batch` and the item's own serial is stamped |
| `CoreProperties.CycleTraffic` | core.py:184-188 | with such serials, a cycle posts, in snapshot order, the expected fan-out of every item that changed against the previous snapshot, or of every item when forced; a failed read posts nothing |
| `CoreProperties.ForceRefreshSendsEverything` | core.py:135-136 | a forced refresh fans out every item read, changed or not |
| `CoreProperties.UnchangedCycleDoesNotRetry` | core.py:184-190 | an unforced cycle in which no item changed posts nothing and changes nothing but the snapshot, whatever waits in the queue |
| `CoreProperties.SameSnapshotDoesNotRetry` | core.py:129-190 | polling the same snapshot again, with distinct serials, changes nothing at all, even with points queued |
| `CoreProperties.SyncedIsInvariant` | core.py:265-317 | if the file equals the queue before a cycle, a poll, a start or a stop, it does so afterwards |
| `CoreProperties.StoppedMonitorIgnoresPoll` | core.py:126-131 | after `stop_polling`, a tick changes nothing |
| `CoreScenario.FirstSightingThenServerError` | core.py:166-321 | item "ABCD" first seen at 1.0/2.0 with time stamp 1000 ms, one row to `http://h`, server answering 500: one point (time stamp 1.0) is queued and saved, one batch with exactly that point goes to `http://h/api/v1/gps/batch`, and a second poll of the same snapshot posts nothing and leaves it all unchanged |
| `Grabber.ReadItem` | AirTag-grabber.py:130-146 | every record gives an item whose location is the record's fix with defaults 0.0 and the time stamp unscaled; name, serial and battery take the record's values or `""`, `None` |
| `Grabber.ReadItems` | AirTag-grabber.py:130-146 | one item per record, in record order |
| `Grabber.SendItemLocation` | AirTag-grabber.py:187-234 | no location or no server URL: unchanged. Otherwise one request goes to the configured URL as it is (a URL that `urlparse` rejects is under "## Left out"), carrying one point that has the item's fix and no motion. Only 200 stamps the serial; other outcomes change nothing, and nothing is kept for retry |
| `Grabber.SendToRows` | AirTag-grabber.py:184-185 | sending to several rows keeps polling and the snapshot |
| `Grabber.FanOut` | AirTag-grabber.py:172-185 | as `Grabber.SendToRows`, over the rows matching the item's serial |
| `Grabber.Dispatch` | AirTag-grabber.py:148-152 | as `Grabber.SendToRows`, over all items of the cycle |
| `Grabber.CheckItemsData` | AirTag-grabber.py:102-155 | a failed read changes nothing; a successful one replaces the snapshot with the items read |
| `Grabber.Poll` | AirTag-grabber.py:93-97 | while polling is off, or when the read fails, a tick changes nothing; otherwise it runs one unforced cycle, which replaces the snapshot |
| `Grabber.StartPolling` | AirTag-grabber.py:86-88 | polling is on and one unforced cycle has run at once: after a failed read only the flag changed |
| `Grabber.StopPolling` | AirTag-grabber.py:90-91 | polling is off and nothing else changed |
| `Grabber.ForceRefresh` | AirTag-grabber.py:99-100 | a forced cycle runs whether or not polling is on and leaves the flag as it was; a failed read changes nothing, a successful one replaces the snapshot |
| `Grabber.FanOutRequests` | AirTag-grabber.py:172-185 | a fan-out hands exactly one request per matching row with a server URL to `requests.post`, in config order, and none when no row matches |
| `Grabber.ExpectedRequestsCarryOnePoint` | AirTag-grabber.py:208-224 | every request of a fan-out carries exactly one point: the item's fix, with heading and speed fields 0, to a non-empty URL |
| `Grabber.SameSnapshotSendsNothing` | AirTag-grabber.py:148-154 | polling the same snapshot again, with distinct serials, sends nothing, even after failed posts |
| `Grabber.NoSchemeCheck` | AirTag-grabber.py:195-206 | a URL such as `ftp://x` is handed to `requests.post` as it is, without a scheme check or path suffix |
| `Variants.TimestampUnitsDiffer` | AirTag-grabber.py:137-144 | core.py's item for a record is the earlier variant's item with the time stamp divided by 1000 |
| `Variants.OnlyCoreChecksScheme` | core.py:246-249 | a row with URL `ftp://x` is skipped by core.py and handed to `requests.post` unchanged by AirTag-grabber.py |

## Left out

- User interface: `build_main_ui`, `build_tag_table`, `collect_tag_table_into_config`, `EntryWithPlaceholder`, the items listbox (`set_items_listbox`, `update_items_listbox`, `format_item_listbox_entry`, `on_item_double_click`) and the error pop-up on a failed read. These are widget code with no effect on the monitor's state beyond what is modelled.
- File I/O: `load_config` and `save_config` are not modelled. The configuration is a parameter of every cycle. A missing `tag_configs` key is an empty list.
- Loading the queue: `load_pending_data` is the `loaded` parameter of `Core.Initial`. Its fall-back to an empty queue on a missing or corrupt file is not modelled.
- Saving the queue: `save_pending_data` is the assignment of `persisted`. A failed write is not modelled.
- `VERSION` and setup.py: packaging, no logic.
- JSON decoding: records arrive already decoded. A failed open or decode is the `Failure` case of the read parameter.
- Ill-typed records are not modelled: a JSON `null` for `location`, a non-numeric time stamp, or a top level that is not a list. The source raises an uncaught exception for these.
- Null field values: a field present with value `null` is treated like an absent field.
- `requests.post`: the reply to the n-th request is a parameter. The 10-second timeout and the response text are not modelled. The parameter is unconstrained: the model does not encode that `requests.post` raises before sending anything when the URL has no `http://` or `https://` scheme. Two places reach that case. One is the misrouted batch of a core.py serial ending in `:`, caught at core.py:320. The other is any AirTag-grabber.py row whose configured URL lacks such a scheme (`ftp://x`, or no scheme at all), caught at AirTag-grabber.py:233. In the source neither sends nor stamps anything. In the model such a request is still on `wire`, and a reply parameter that answers 200 for it would stamp the serial.
- Query string: `urlparse`/`parse_qs`/`urlencode`/`urlunparse` are not modelled. A request records the URL before the `api_key` parameter and the key itself. Merging with a query already present in the URL is not modelled. Neither is `urlparse` raising `ValueError` (for a URL such as `http://[h` that passes the scheme check): in the source that exception is raised outside the `try`, after the point was appended and saved, and it escapes `check_items_data`, so the rest of the cycle, the snapshot update and the rescheduling of `poll` are skipped. The model posts the batch and carries on. AirTag-grabber.py has the same call at AirTag-grabber.py:202, also outside its `try` (which starts at :226). There the exception is raised before anything is posted, and it likewise skips the rest of the cycle, the `last_items` update (:154) and the rescheduling of `poll` (:97). `Grabber.SendItemLocation` posts to such a URL instead.
- Floating point: numbers are exact reals, so rounding, NaN and -0.0 are not modelled. `str(loc.timeStamp)` is not modelled either: a point keeps the time stamp as a number.
- Timer: `root.after` and the 60-second interval are not modelled. Only the `polling` flag test in `poll` is kept.
- Logging: the `print` calls are not modelled.
- Core.CheckItemsData: uses one `now` for the whole cycle, because `time.time()` is a parameter. In the source, each successful delivery within a cycle is stamped with its own reading of the clock.
- Grabber.CheckItemsData: uses one `now` for the whole cycle, for the same reason.
- Persisted round trip: saving the queue and loading it back through JSON is file I/O, outside the model.
- CoreProperties.FanOutTargets: states where each request goes (URL and key), not its payload, and only for serials without `::` that do not end in `:`. The payload is stated per call by `Core.SendItemLocationEffect`. Other serials can split elsewhere (`Pending.ColonSerialMisroutes`).
- CoreProperties.CycleTraffic: the same restriction to such serials, and the same focus on URL and key.
- CoreProperties.ForceRefreshSendsEverything: the same restriction to such serials, and the same focus on URL and key.
- Items.FixOf: its contract names only the absent-object case and the latitude and time stamp fields; the other fields are copied the same way, which `Core.ReadItem` and `Variants.TimestampUnitsDiffer` rely on through the definition.

=== FILE: core.dfy ===
/**
 * `ItemsDataMonitor` of core.py without its user interface: reading a
 * snapshot, detecting changes, fanning a fix out to every matching
 * configuration row, queueing it and attempting delivery, and the polling
 * flag.
 */
module Core {
  import opened Wrappers
  import opened Text
  import opened Items
  import opened Detector
  import opened Pending

  /** The state at start-up: nothing seen or sent, the queue as loaded from disk. */
  function Initial(loaded: map<string, seq<Point>>): (m: State)
    ensures m.pending == loaded && Synced(m)
    ensures !m.polling && m.lastItems == [] && m.lastSent == map[] && m.wire == []
  {
    State(false, [], loaded, map[], loaded, [])
  }

  /**
   * One snapshot record as a `FindMyItem`: absent fields default to "",
   * `None` or 0.0, and the time stamp is converted from milliseconds to
   * seconds.
   */
  function ReadItem(d: RawRecord): (item: Item)
    ensures item.location.Some?
    ensures item.location.value.timeStamp * 1000.0 == FixOf(d.location).timeStamp
    ensures item.location.value == FixOf(d.location).(timeStamp := item.location.value.timeStamp)
    ensures item.serialNumber == d.serialNumber.GetOr("")
    ensures item.name == d.name.GetOr("") && item.batteryStatus == d.batteryStatus
  {
    var loc := FixOf(d.location);
    Item(d.name.GetOr(""), d.serialNumber.GetOr(""), d.batteryStatus, Some(loc.(timeStamp := loc.timeStamp / 1000.0)))
  }

  /** The items of a snapshot: one per record, in record order. */
  function ReadItems(records: seq<RawRecord>): (items: seq<Item>)
    ensures |items| == |records|
    ensures forall i :: 0 <= i < |records| ==> items[i] == ReadItem(records[i])
  {
    if |records| == 0 then [] else [ReadItem(records[0])] + ReadItems(records[1..])
  }

  /**
   * The normalised server URL a row sends `item` to, or `None` when
   * `send_item_location` skips: no location, no server URL, or a URL
   * without an http(s) scheme.
   */
  function Destination(item: Item, row: ConfigRow): Option<string> {
    var url := ServerUrlOf(row);
    if item.location.None? || url == "" then None
    else
      var base := WithTrailingSlash(url);
      if !HasWebScheme(base + BatchPath) then None else Some(base)
  }

  /** A row is skipped exactly when the item has no location, or its URL is empty or not http(s). */
  lemma DestinationSkips(item: Item, row: ConfigRow)
    ensures Destination(item, row).None? <==>
      item.location.None? || ServerUrlOf(row) == "" || !HasWebScheme(ServerUrlOf(row))
    ensures Destination(item, row).Some? ==>
      var base := Destination(item, row).value;
      && EndsWith(base, "/") && StartsWith(base, ServerUrlOf(row)) && |base| <= |ServerUrlOf(row)| + 1
      && (EndsWith(ServerUrlOf(row), "/") ==> base == ServerUrlOf(row))
  {
    var url := ServerUrlOf(row);
    if url != "" {
      SchemeCheckSeesConfiguredUrl(url);
    }
  }

  /**
   * `send_item_location`: queue the item's fix under `serial::url`, save the
   * queue, then attempt to deliver everything queued under that key.
   */
  function SendItemLocation(m: State, item: Item, row: ConfigRow, replies: Replies, now: real): (r: State)
    ensures Destination(item, row).None? ==> r == m
    ensures r.polling == m.polling && r.lastItems == m.lastItems
    ensures SavedAfterEveryChange(m, r)
  {
    match Destination(item, row)
    case None => m
    case Some(base) =>
      var key := PendingKey(item.serialNumber, base);
      AttemptSendPending(Enqueue(m, key, PointOf(item.location.value)), key, ApiKeyOf(row), replies, now)
  }

  /**
   * A row that is not skipped, whatever the serial, gets exactly one point
   * appended to the tail of its queue `serial::url/`, the queue is saved,
   * and the whole queue is posted in one batch with the row's API key. The
   * batch goes to the URL part of the key split at its first `::`, and HTTP
   * 200 empties that queue and stamps the serial part; any other outcome
   * keeps the queue with the new point. Other queues never change. When the
   * serial has no `::` and does not end in `:`, the split gives back the
   * item's serial and `url/`, so the batch goes to `url/api/v1/gps/batch`
   * and the item's own serial is stamped.
   */
  lemma SendItemLocationEffect(m: State, item: Item, row: ConfigRow, replies: Replies, now: real)
    requires Destination(item, row).Some?
    ensures var r := SendItemLocation(m, item, row, replies, now);
      var base := Destination(item, row).value;
      var key := PendingKey(item.serialNumber, base);
      var parts := SplitFirst(key);
      var batch := Queue(m.pending, key) + [PointOf(item.location.value)];
      && parts.Some?
      && r.wire == m.wire + [Request(BatchUrl(parts.value.1), ApiKeyOf(row), batch)]
      && (forall k :: k != key ==> Queue(r.pending, k) == Queue(m.pending, k))
      && r.pending.Keys == m.pending.Keys + {key}
      && Synced(r)
      && (Delivered(replies(|m.wire|)) ==>
            Queue(r.pending, key) == [] && r.lastSent == m.lastSent[parts.value.0 := now])
      && (!Delivered(replies(|m.wire|)) ==>
            Queue(r.pending, key) == batch && r.lastSent == m.lastSent)
      && (SeparatorFree(item.serialNumber) ==>
            parts.value == (item.serialNumber, base) && BatchUrl(parts.value.1) == base + BatchPath)
  {
    var base := Destination(item, row).value;
    JoinedHasSeparator(item.serialNumber, base);
    if SeparatorFree(item.serialNumber) {
      KeyRoundTrip(item.serialNumber, base);
    }
  }

  /** `send_item_location` for each row in turn. */
  function SendToRows(m: State, item: Item, rows: seq<ConfigRow>, replies: Replies, now: real): (r: State)
    ensures r.polling == m.polling && r.lastItems == m.lastItems
    ensures SavedAfterEveryChange(m, r)
    decreases |rows|
  {
    if |rows| == 0 then m
    else SendToRows(SendItemLocation(m, item, rows[0], replies, now), item, rows[1..], replies, now)
  }

  /** `send_item_location_to_all_configs`: every row whose serial matches, in config order. */
  function FanOut(m: State, item: Item, config: seq<ConfigRow>, replies: Replies, now: real): (r: State)
    ensures r.polling == m.polling && r.lastItems == m.lastItems
    ensures SavedAfterEveryChange(m, r)
  {
    SendToRows(m, item, MatchingRows(config, item.serialNumber), replies, now)
  }

  /** The items of one cycle, each fanned out when it changed or when the cycle is forced. */
  function Dispatch(m: State, last: seq<Item>, items: seq<Item>, force: bool,
                    config: seq<ConfigRow>, replies: Replies, now: real): (r: State)
    ensures r.polling == m.polling && r.lastItems == m.lastItems
    ensures SavedAfterEveryChange(m, r)
    decreases |items|
  {
    if |items| == 0 then m
    else
      var next := if LocationHasChanged(last, items[0]) || force
                  then FanOut(m, items[0], config, replies, now) else m;
      Dispatch(next, last, items[1..], force, config, replies, now)
  }

  /**
   * `check_items_data`: a failed read leaves everything as it was; otherwise
   * the new items are dispatched against the previous snapshot, which they
   * then replace.
   */
  function CheckItemsData(m: State, read: Result<seq<RawRecord>, ReadError>, force: bool,
                          config: seq<ConfigRow>, replies: Replies, now: real): (r: State)
    ensures read.Failure? ==> r == m
    ensures read.Success? ==> r.lastItems == ReadItems(read.value)
    ensures r.polling == m.polling
    ensures SavedAfterEveryChange(m, r)
  {
    match read
    case Failure(_) => m
    case Success(records) =>
      var items := ReadItems(records);
      Dispatch(m, m.lastItems, items, force, config, replies, now).(lastItems := items)
  }

  /** `poll` without the timer: a cycle runs only while polling is on, and never forced. */
  function Poll(m: State, read: Result<seq<RawRecord>, ReadError>,
                config: seq<ConfigRow>, replies: Replies, now: real): (r: State)
    ensures !m.polling || read.Failure? ==> r == m
    ensures m.polling && read.Success? ==> r.lastItems == ReadItems(read.value)
    ensures r.polling == m.polling
    ensures SavedAfterEveryChange(m, r)
    ensures m.polling ==> r == CheckItemsData(m, read, false, config, replies, now)
  {
    if !m.polling then m else CheckItemsData(m, read, false, config, replies, now)
  }

  /** `start_polling`: switch polling on and run the first cycle at once. */
  function StartPolling(m: State, read: Result<seq<RawRecord>, ReadError>,
                        config: seq<ConfigRow>, replies: Replies, now: real): (r: State)
    ensures r.polling
    ensures read.Failure? ==> r == m.(polling := true)
    ensures read.Success? ==> r.lastItems == ReadItems(read.value)
    ensures SavedAfterEveryChange(m, r)
    ensures r == CheckItemsData(m.(polling := true), read, false, config, replies, now)
  {
    Poll(m.(polling := true), read, config, replies, now)
  }

  /** `stop_polling`: switch polling off; nothing else changes. */
  function StopPolling(m: State): (r: State)
    ensures !r.polling && r.(polling := m.polling) == m
  {
    m.(polling := false)
  }

  /** `force_refresh`: a forced cycle, whether or not polling is on. */
  function ForceRefresh(m: State, read: Result<seq<RawRecord>, ReadError>,
                        config: seq<ConfigRow>, replies: Replies, now: real): (r: State)
    ensures r.polling == m.polling
    ensures read.Failure? ==> r == m
    ensures read.Success? ==> r.lastItems == ReadItems(read.value)
    ensures SavedAfterEveryChange(m, r)
  {
    CheckItemsData(m, read, true, config, replies, now)
  }
}

=== FILE: core_properties.dfy ===
/**
 * Properties of core.py's cycle that relate several calls: which requests a
 * fan-out posts, how failed deliveries accumulate in the queue, that only
 * an append triggers a retry, and that the saved file tracks the queue.
 */
module CoreProperties {
  import opened Wrappers
  import opened Text
  import opened Items
  import opened Detector
  import opened Pending
  import opened Core

  /** Where each request went: its URL before the query, and its API key. */
  function Targets(reqs: seq<Request>): (ts: seq<(string, string)>)
    ensures |ts| == |reqs|
  {
    if |reqs| == 0 then [] else [(reqs[0].url, reqs[0].apiKey)] + Targets(reqs[1..])
  }

  lemma {:induction false} TargetsAppend(a: seq<Request>, b: seq<Request>)
    ensures Targets(a + b) == Targets(a) + Targets(b)
    decreases |a|
  {
    if |a| > 0 {
      assert (a + b)[1..] == a[1..] + b;
      TargetsAppend(a[1..], b);
    } else {
      assert a + b == b;
    }
  }

  /** Two successive extensions of a sequence are one extension by both parts. */
  lemma Chain<X>(t0: seq<X>, t1: seq<X>, t2: seq<X>, e0: seq<X>, e1: seq<X>, e: seq<X>)
    requires t1 == t0 + e0 && t2 == t1 + e1 && e == e0 + e1
    ensures t2 == t0 + e
  {
  }

  /**
   * Reference definition of a fan-out's traffic: one request per row of
   * `config` that matches the item and is not skipped, in config order.
   */
  function ExpectedTargets(item: Item, config: seq<ConfigRow>): seq<(string, string)> {
    if |config| == 0 then []
    else
      RowTarget(item, config[0]) + ExpectedTargets(item, config[1..])
  }

  lemma {:induction false} ExpectedTargetsOfMatching(item: Item, config: seq<ConfigRow>)
    ensures ExpectedTargets(item, MatchingRows(config, item.serialNumber)) == ExpectedTargets(item, config)
    decreases |config|
  {
    if |config| > 0 {
      ExpectedTargetsOfMatching(item, config[1..]);
      if Matches(config[0], item.serialNumber) {
        var rows := MatchingRows(config, item.serialNumber);
        assert rows == [config[0]] + MatchingRows(config[1..], item.serialNumber);
        assert rows[1..] == MatchingRows(config[1..], item.serialNumber);
      }
    }
  }

  /** The request a single row adds to a fan-out, if any. */
  function RowTarget(item: Item, row: ConfigRow): seq<(string, string)> {
    if Matches(row, item.serialNumber) && Destination(item, row).Some?
    then [(Destination(item, row).value + BatchPath, ApiKeyOf(row))] else []
  }

  /** One `send_item_location` posts what the reference definition expects of its row. */
  lemma StepTargets(m: State, item: Item, row: ConfigRow, replies: Replies, now: real)
    requires SeparatorFree(item.serialNumber) && Matches(row, item.serialNumber)
    ensures Targets(SendItemLocation(m, item, row, replies, now).wire) == Targets(m.wire) + RowTarget(item, row)
  {
    var m1 := SendItemLocation(m, item, row, replies, now);
    if Destination(item, row).Some? {
      SendItemLocationEffect(m, item, row, replies, now);
      TargetsAppend(m.wire, [m1.wire[|m.wire|]]);
    }
  }

  lemma {:induction false} SendToRowsTargets(m: State, item: Item, rows: seq<ConfigRow>, replies: Replies, now: real)
    requires SeparatorFree(item.serialNumber)
    requires forall i :: 0 <= i < |rows| ==> Matches(rows[i], item.serialNumber)
    ensures Targets(SendToRows(m, item, rows, replies, now).wire) == Targets(m.wire) + ExpectedTargets(item, rows)
    decreases |rows|
  {
    if |rows| > 0 {
      var m1 := SendItemLocation(m, item, rows[0], replies, now);
      var r := SendToRows(m1, item, rows[1..], replies, now);
      StepTargets(m, item, rows[0], replies, now);
      SendToRowsTargets(m1, item, rows[1..], replies, now);
      Chain(Targets(m.wire), Targets(m1.wire), Targets(r.wire),
            RowTarget(item, rows[0]), ExpectedTargets(item, rows[1..]), ExpectedTargets(item, rows));
    }
  }

  /**
   * `send_item_location_to_all_configs` posts exactly one request per
   * matching row that has an http(s) server URL (when the item has a
   * location), in config order, each to that row's URL with the batch path
   * and that row's API key.
   */
  lemma FanOutTargets(m: State, item: Item, config: seq<ConfigRow>, replies: Replies, now: real)
    requires SeparatorFree(item.serialNumber)
    ensures Targets(FanOut(m, item, config, replies, now).wire) == Targets(m.wire) + ExpectedTargets(item, config)
  {
    var rows := MatchingRows(config, item.serialNumber);
    SendToRowsTargets(m, item, rows, replies, now);
    ExpectedTargetsOfMatching(item, config);
  }

  lemma {:induction false} NoMatchingRows(config: seq<ConfigRow>, serial: string)
    requires forall i :: 0 <= i < |config| ==> !Matches(config[i], serial)
    ensures MatchingRows(config, serial) == []
    decreases |config|
  {
    if |config| > 0 {
      NoMatchingRows(config[1..], serial);
    }
  }

  /** An item without a matching row changes nothing. */
  lemma FanOutWithoutMatchIsNoOp(m: State, item: Item, config: seq<ConfigRow>, replies: Replies, now: real)
    requires forall i :: 0 <= i < |config| ==> !Matches(config[i], item.serialNumber)
    ensures FanOut(m, item, config, replies, now) == m
  {
    NoMatchingRows(config, item.serialNumber);
  }

  /** No request is ever answered with HTTP 200. */
  ghost predicate NeverDelivered(replies: Replies) {
    forall n: nat :: !Delivered(replies(n))
  }

  /** The points a fan-out adds under `key` when nothing is delivered. */
  function ExpectedAppends(item: Item, rows: seq<ConfigRow>, key: string): seq<Point>
    requires item.location.Some?
  {
    if |rows| == 0 then []
    else
      RowAppend(item, rows[0], key) + ExpectedAppends(item, rows[1..], key)
  }

  /** The point a single row adds under `key` when its delivery fails. */
  function RowAppend(item: Item, row: ConfigRow, key: string): seq<Point>
    requires item.location.Some?
  {
    if Matches(row, item.serialNumber) && Destination(item, row).Some?
       && PendingKey(item.serialNumber, Destination(item, row).value) == key
    then [PointOf(item.location.value)] else []
  }

  lemma StepAppends(m: State, item: Item, row: ConfigRow, replies: Replies, now: real, key: string)
    requires item.location.Some? && Matches(row, item.serialNumber)
    requires !Delivered(replies(|m.wire|))
    ensures Queue(SendItemLocation(m, item, row, replies, now).pending, key) == Queue(m.pending, key) + RowAppend(item, row, key)
  {
    if Destination(item, row).Some? {
      SendItemLocationEffect(m, item, row, replies, now);
    }
  }

  lemma {:induction false} SendToRowsAppends(m: State, item: Item, rows: seq<ConfigRow>, replies: Replies, now: real, key: string)
    requires item.location.Some?
    requires NeverDelivered(replies)
    requires forall i :: 0 <= i < |rows| ==> Matches(rows[i], item.serialNumber)
    ensures Queue(SendToRows(m, item, rows, replies, now).pending, key)
            == Queue(m.pending, key) + ExpectedAppends(item, rows, key)
    decreases |rows|
  {
    if |rows| > 0 {
      var m1 := SendItemLocation(m, item, rows[0], replies, now);
      var r := SendToRows(m1, item, rows[1..], replies, now);
      StepAppends(m, item, rows[0], replies, now, key);
      SendToRowsAppends(m1, item, rows[1..], replies, now, key);
      Chain(Queue(m.pending, key), Queue(m1.pending, key), Queue(r.pending, key),
            RowAppend(item, rows[0], key), ExpectedAppends(item, rows[1..], key), ExpectedAppends(item, rows, key));
    }
  }

  lemma {:induction false} ExpectedAppendsOfMatching(item: Item, config: seq<ConfigRow>, key: string)
    requires item.location.Some?
    ensures ExpectedAppends(item, MatchingRows(config, item.serialNumber), key) == ExpectedAppends(item, config, key)
    decreases |config|
  {
    if |config| > 0 {
      ExpectedAppendsOfMatching(item, config[1..], key);
      if Matches(config[0], item.serialNumber) {
        var rows := MatchingRows(config, item.serialNumber);
        assert rows[1..] == MatchingRows(config[1..], item.serialNumber);
      }
    }
  }

  /**
   * When no delivery succeeds, a fan-out appends one copy of the item's
   * point per matching valid row to that row's queue, and every other queue
   * keeps its points.
   */
  lemma FanOutKeepsFailedPoints(m: State, item: Item, config: seq<ConfigRow>, replies: Replies, now: real, key: string)
    requires item.location.Some?
    requires NeverDelivered(replies)
    ensures Queue(FanOut(m, item, config, replies, now).pending, key)
            == Queue(m.pending, key) + ExpectedAppends(item, config, key)
  {
    SendToRowsAppends(m, item, MatchingRows(config, item.serialNumber), replies, now, key);
    ExpectedAppendsOfMatching(item, config, key);
  }

  /** Send the fixes of `fixes`, one after another, through the same row. */
  function SendEach(m: State, fixes: seq<Item>, row: ConfigRow, replies: Replies, now: real): (r: State)
    ensures r.polling == m.polling && r.lastItems == m.lastItems
    decreases |fixes|
  {
    if |fixes| == 0 then m
    else SendEach(SendItemLocation(m, fixes[0], row, replies, now), fixes[1..], row, replies, now)
  }

  /** The points of a series of fixes, in order. */
  function PointsOf(fixes: seq<Item>): (ps: seq<Point>)
    requires forall i :: 0 <= i < |fixes| ==> fixes[i].location.Some?
    ensures |ps| == |fixes|
    ensures forall i :: 0 <= i < |fixes| ==> LocationOf(ps[i]) == fixes[i].location.value && Stationary(ps[i])
  {
    if |fixes| == 0 then [] else [PointOf(fixes[0].location.value)] + PointsOf(fixes[1..])
  }

  /** Fixes of one serial that the row accepts, all under the same queue key. */
  ghost predicate SameRoute(fixes: seq<Item>, row: ConfigRow, serial: string, base: string) {
    forall i :: 0 <= i < |fixes| ==>
      fixes[i].serialNumber == serial && fixes[i].location.Some? && Destination(fixes[i], row) == Some(base)
  }

  /** One failed append of a fix through a row that accepts it. */
  lemma StepFailed(m: State, fix: Item, row: ConfigRow, serial: string, base: string, replies: Replies, now: real)
    requires fix.serialNumber == serial && fix.location.Some?
    requires Destination(fix, row) == Some(base)
    requires !Delivered(replies(|m.wire|))
    ensures var r := SendItemLocation(m, fix, row, replies, now);
            && Queue(r.pending, PendingKey(serial, base)) == Queue(m.pending, PendingKey(serial, base)) + [PointOf(fix.location.value)]
            && |r.wire| == |m.wire| + 1
            && r.lastSent == m.lastSent
            && Synced(r)
  {
    SendItemLocationEffect(m, fix, row, replies, now);
  }

  /**
   * N appends whose deliveries all fail leave exactly those N points queued,
   * in order, after whatever was queued before, and the saved file holds
   * them too.
   */
  lemma {:induction false} FailedDeliveriesAccumulate(m: State, fixes: seq<Item>, row: ConfigRow, serial: string, base: string,
                                                      replies: Replies, now: real)
    requires SameRoute(fixes, row, serial, base)
    requires forall n: nat :: |m.wire| <= n < |m.wire| + |fixes| ==> !Delivered(replies(n))
    ensures var r := SendEach(m, fixes, row, replies, now);
            && Queue(r.pending, PendingKey(serial, base)) == Queue(m.pending, PendingKey(serial, base)) + PointsOf(fixes)
            && |r.wire| == |m.wire| + |fixes|
            && r.lastSent == m.lastSent
            && (|fixes| > 0 ==> Synced(r))
    decreases |fixes|
  {
    if |fixes| > 0 {
      var key := PendingKey(serial, base);
      var m1 := SendItemLocation(m, fixes[0], row, replies, now);
      var r := SendEach(m1, fixes[1..], row, replies, now);
      StepFailed(m, fixes[0], row, serial, base, replies, now);
      FailedDeliveriesAccumulate(m1, fixes[1..], row, serial, base, replies, now);
      Chain(Queue(m.pending, key), Queue(m1.pending, key), Queue(r.pending, key),
            [PointOf(fixes[0].location.value)], PointsOf(fixes[1..]), PointsOf(fixes));
    }
  }

  /**
   * One append of a fix through a row that accepts it, answered with HTTP
   * 200: the batch goes to the URL part of the key, and the serial part is
   * stamped.
   */
  lemma StepDelivered(m: State, fix: Item, row: ConfigRow, serial: string, base: string, replies: Replies, now: real)
    requires fix.serialNumber == serial && fix.location.Some?
    requires Destination(fix, row) == Some(base)
    requires Delivered(replies(|m.wire|))
    ensures var key := PendingKey(serial, base);
            var parts := SplitFirst(key);
            var r := SendItemLocation(m, fix, row, replies, now);
            && parts.Some?
            && r.wire == m.wire + [Request(BatchUrl(parts.value.1), ApiKeyOf(row),
                                           Queue(m.pending, key) + [PointOf(fix.location.value)])]
            && Queue(r.pending, key) == []
            && r.lastSent == m.lastSent[parts.value.0 := now]
            && Synced(r)
            && (SeparatorFree(serial) ==> parts.value == (serial, base) && BatchUrl(parts.value.1) == base + BatchPath)
  {
    SendItemLocationEffect(m, fix, row, replies, now);
  }

  /**
   * From `m` to `r`, the queue under `serial::base` was delivered in one
   * batch: the last of the `|extra| + 1` requests carries what was queued
   * in `m`, then `extra`, then `p`, to the URL part of the key with the
   * row's API key; the queue is empty and saved, and the serial part of the
   * key is stamped. For a serial without `::` that does not end in `:`,
   * that is the URL `base` with the batch path and the serial itself.
   */
  predicate ClearedInOneBatch(m: State, r: State, serial: string, base: string, apiKey: string,
                              extra: seq<Point>, p: Point, now: real)
  {
    var key := PendingKey(serial, base);
    var parts := SplitFirst(key);
    && parts.Some?
    && |r.wire| == |m.wire| + |extra| + 1
    && r.wire[|r.wire| - 1] == Request(BatchUrl(parts.value.1), apiKey, Queue(m.pending, key) + extra + [p])
    && Queue(r.pending, key) == []
    && r.lastSent == m.lastSent[parts.value.0 := now]
    && Synced(r)
    && (SeparatorFree(serial) ==>
          r.wire[|r.wire| - 1].url == base + BatchPath && r.lastSent == m.lastSent[serial := now])
  }

  /**
   * The delivered append after a run of failed ones, stated against the
   * state `m` before the run: `m1` is `m` after the run.
   */
  lemma DeliveredAfterRun(m: State, m1: State, extra: seq<Point>, item: Item, row: ConfigRow, serial: string,
                          base: string, replies: Replies, now: real)
    requires item.serialNumber == serial && item.location.Some? && Destination(item, row) == Some(base)
    requires Queue(m1.pending, PendingKey(serial, base)) == Queue(m.pending, PendingKey(serial, base)) + extra
    requires |m1.wire| == |m.wire| + |extra| && m1.lastSent == m.lastSent
    requires Delivered(replies(|m1.wire|))
    ensures ClearedInOneBatch(m, SendItemLocation(m1, item, row, replies, now), serial, base, ApiKeyOf(row),
                              extra, PointOf(item.location.value), now)
  {
    StepDelivered(m1, item, row, serial, base, replies, now);
  }

  /**
   * After N failed appends, the next append that is answered with 200
   * posts all N earlier points and the new one, in order, in one batch as
   * the (N+1)-th request, empties the queue and stamps the serial part of
   * the key; for a serial without `::` that does not end in `:`, the batch
   * goes to `url/api/v1/gps/batch` and the item's own serial is stamped.
   */
  lemma OneSuccessClearsAll(m: State, fixes: seq<Item>, item: Item, row: ConfigRow, serial: string, base: string,
                            replies: Replies, now: real)
    requires SameRoute(fixes, row, serial, base)
    requires item.serialNumber == serial && item.location.Some? && Destination(item, row) == Some(base)
    requires forall n: nat :: |m.wire| <= n < |m.wire| + |fixes| ==> !Delivered(replies(n))
    requires Delivered(replies(|m.wire| + |fixes|))
    ensures |PointsOf(fixes)| == |fixes|
    ensures ClearedInOneBatch(m, SendItemLocation(SendEach(m, fixes, row, replies, now), item, row, replies, now),
                              serial, base, ApiKeyOf(row), PointsOf(fixes), PointOf(item.location.value), now)
  {
    var key := PendingKey(serial, base);
    var m1 := SendEach(m, fixes, row, replies, now);
    assert Queue(m1.pending, key) == Queue(m.pending, key) + PointsOf(fixes)
           && |m1.wire| == |m.wire| + |fixes| && m1.lastSent == m.lastSent by {
      FailedDeliveriesAccumulate(m, fixes, row, serial, base, replies, now);
    }
    DeliveredAfterRun(m, m1, PointsOf(fixes), item, row, serial, base, replies, now);
  }

  /** Every serial can stand in front of a key separator. */
  ghost predicate CleanSerials(items: seq<Item>) {
    forall i :: 0 <= i < |items| ==> SeparatorFree(items[i].serialNumber)
  }

  /** The requests one item of a cycle is expected to cause. */
  function ItemTargets(last: seq<Item>, item: Item, force: bool, config: seq<ConfigRow>): seq<(string, string)> {
    if LocationHasChanged(last, item) || force then ExpectedTargets(item, config) else []
  }

  /**
   * Reference definition of a cycle's traffic: the expected fan-out of each
   * item that changed against `last` (or of every item when forced), in
   * snapshot order.
   */
  function CycleTargets(last: seq<Item>, items: seq<Item>, force: bool, config: seq<ConfigRow>): seq<(string, string)> {
    if |items| == 0 then []
    else ItemTargets(last, items[0], force, config) + CycleTargets(last, items[1..], force, config)
  }

  lemma StepDispatchTargets(m: State, last: seq<Item>, item: Item, force: bool,
                            config: seq<ConfigRow>, replies: Replies, now: real)
    requires SeparatorFree(item.serialNumber)
    ensures var next := if LocationHasChanged(last, item) || force then FanOut(m, item, config, replies, now) else m;
            Targets(next.wire) == Targets(m.wire) + ItemTargets(last, item, force, config)
  {
    if LocationHasChanged(last, item) || force {
      FanOutTargets(m, item, config, replies, now);
    }
  }

  lemma {:induction false} DispatchTargets(m: State, last: seq<Item>, items: seq<Item>, force: bool,
                                           config: seq<ConfigRow>, replies: Replies, now: real)
    requires CleanSerials(items)
    ensures Targets(Dispatch(m, last, items, force, config, replies, now).wire)
            == Targets(m.wire) + CycleTargets(last, items, force, config)
    decreases |items|
  {
    if |items| > 0 {
      var next := if LocationHasChanged(last, items[0]) || force then FanOut(m, items[0], config, replies, now) else m;
      var r := Dispatch(next, last, items[1..], force, config, replies, now);
      StepDispatchTargets(m, last, items[0], force, config, replies, now);
      DispatchTargets(next, last, items[1..], force, config, replies, now);
      Chain(Targets(m.wire), Targets(next.wire), Targets(r.wire),
            ItemTargets(last, items[0], force, config), CycleTargets(last, items[1..], force, config),
            CycleTargets(last, items, force, config));
    }
  }

  /**
   * A cycle posts, in snapshot order, the expected fan-out of every item
   * whose location changed against the previous snapshot, or of every item
   * when forced; a failed read posts nothing.
   */
  lemma CycleTraffic(m: State, read: Result<seq<RawRecord>, ReadError>, force: bool,
                     config: seq<ConfigRow>, replies: Replies, now: real)
    requires read.Success? ==> CleanSerials(ReadItems(read.value))
    ensures var r := CheckItemsData(m, read, force, config, replies, now);
            Targets(r.wire) == Targets(m.wire) +
              (if read.Success? then CycleTargets(m.lastItems, ReadItems(read.value), force, config) else [])
  {
    if read.Success? {
      DispatchTargets(m, m.lastItems, ReadItems(read.value), force, config, replies, now);
    }
  }

  /** The expected fan-out of every item, in order. */
  function AllTargets(items: seq<Item>, config: seq<ConfigRow>): seq<(string, string)> {
    if |items| == 0 then [] else ExpectedTargets(items[0], config) + AllTargets(items[1..], config)
  }

  lemma {:induction false} ForcedCycleTargets(last: seq<Item>, items: seq<Item>, config: seq<ConfigRow>)
    ensures CycleTargets(last, items, true, config) == AllTargets(items, config)
    decreases |items|
  {
    if |items| > 0 {
      ForcedCycleTargets(last, items[1..], config);
    }
  }

  /**
   * `force_refresh` fans out every item of the snapshot, changed or not,
   * to every matching row.
   */
  lemma ForceRefreshSendsEverything(m: State, records: seq<RawRecord>,
                                    config: seq<ConfigRow>, replies: Replies, now: real)
    requires CleanSerials(ReadItems(records))
    ensures Targets(ForceRefresh(m, Success(records), config, replies, now).wire)
            == Targets(m.wire) + AllTargets(ReadItems(records), config)
  {
    CycleTraffic(m, Success(records), true, config, replies, now);
    ForcedCycleTargets(m.lastItems, ReadItems(records), config);
  }

  lemma {:induction false} QuietDispatch(m: State, last: seq<Item>, items: seq<Item>,
                                         config: seq<ConfigRow>, replies: Replies, now: real)
    requires forall i :: 0 <= i < |items| ==> !LocationHasChanged(last, items[i])
    ensures Dispatch(m, last, items, false, config, replies, now) == m
    decreases |items|
  {
    if |items| > 0 {
      QuietDispatch(m, last, items[1..], config, replies, now);
    }
  }

  /**
   * Retries happen only on an append: an unforced cycle in which no item
   * changed posts nothing and leaves the queue, the file and the stamps
   * alone, however many points are queued. Only the snapshot is replaced.
   */
  lemma UnchangedCycleDoesNotRetry(m: State, records: seq<RawRecord>,
                                   config: seq<ConfigRow>, replies: Replies, now: real)
    requires forall i :: 0 <= i < |records| ==> !LocationHasChanged(m.lastItems, ReadItems(records)[i])
    ensures CheckItemsData(m, Success(records), false, config, replies, now) == m.(lastItems := ReadItems(records))
  {
    QuietDispatch(m, m.lastItems, ReadItems(records), config, replies, now);
  }

  /**
   * Polling the very same snapshot again (serials distinct) changes
   * nothing at all, even while points wait in the queue.
   */
  lemma SameSnapshotDoesNotRetry(m: State, records: seq<RawRecord>,
                                 config: seq<ConfigRow>, replies: Replies, now: real)
    requires ReadItems(records) == m.lastItems && DistinctSerials(m.lastItems)
    ensures Poll(m, Success(records), config, replies, now) == m
  {
    forall i | 0 <= i < |records|
      ensures !LocationHasChanged(m.lastItems, ReadItems(records)[i])
    {
      SameSnapshotIsUnchanged(m.lastItems, i);
    }
    UnchangedCycleDoesNotRetry(m, records, config, replies, now);
  }

  /**
   * The saved file equals the queue after every operation, once it did
   * before: each change of the queue is followed by a save.
   */
  lemma SyncedIsInvariant(m: State, read: Result<seq<RawRecord>, ReadError>, force: bool,
                          config: seq<ConfigRow>, replies: Replies, now: real)
    requires Synced(m)
    ensures Synced(CheckItemsData(m, read, force, config, replies, now))
    ensures Synced(Poll(m, read, config, replies, now))
    ensures Synced(StartPolling(m, read, config, replies, now))
    ensures Synced(StopPolling(m))
  {
  }

  /** Once polling is stopped, a pending timer tick does nothing. */
  lemma StoppedMonitorIgnoresPoll(m: State, read: Result<seq<RawRecord>, ReadError>,
                                  config: seq<ConfigRow>, replies: Replies, now: real)
    ensures Poll(StopPolling(m), read, config, replies, now) == StopPolling(m)
  {
  }
}

=== FILE: core_scenario.dfy ===
/**
 * A worked run of core.py's monitor: item "ABCD" is seen for the first time
 * at latitude 1.0, longitude 2.0, time stamp 1000 ms, with one row sending
 * it to "http://h". The server answers 500.
 */
module CoreScenario {
  import opened Wrappers
  import opened Text
  import opened Items
  import opened Detector
  import opened Pending
  import opened Core
  import opened CoreProperties

  const Record := RawRecord(Some("Tag"), Some("ABCD"), None,
                            Some(RawLocation(Some(1.0), Some(2.0), Some(1000.0), None, None, None)))
  const Row := ConfigRow(Some("ABCD"), Some("http://h"), Some("k"))
  const Fix := Location(1.0, 2.0, 1.0, 0.0, 0.0, 0.0)

  function ServerError(n: nat): Outcome {
    Status(500)
  }

  lemma ScenarioDestination()
    ensures Destination(ReadItem(Record), Row) == Some("http://h/")
    ensures SeparatorFree("ABCD")
  {
    var item := ReadItem(Record);
    assert item.location.Some?;
    assert ServerUrlOf(Row) == "http://h";
    assert !EndsWith("http://h", "/") by {
      assert "http://h"[7..] == "h";
    }
    assert WithTrailingSlash("http://h") == "http://h/";
    var url := "http://h/" + BatchPath;
    assert url[..7] == "http://";
    assert HasWebScheme(url);
    var s := "ABCD" + [':'];
    assert s == "ABCD:";
    assert forall i :: 0 <= i < |s| ==> !SeparatorAt(s, i);
  }

  lemma ScenarioStrings()
    ensures PendingKey("ABCD", "http://h/") == "ABCD::http://h/"
    ensures "http://h/" + BatchPath == "http://h/api/v1/gps/batch"
  {
  }

  lemma ScenarioRead()
    ensures ReadItems([Record]) == [Item("Tag", "ABCD", None, Some(Fix))]
  {
    assert ReadItem(Record).location.value.timeStamp == 1.0;
  }

  /**
   * A failed first send of a clean serial: the batch is the single new
   * point, posted to the row's URL with the batch path, and the point stays
   * queued and saved.
   */
  lemma FailedFirstSend(m: State, item: Item, row: ConfigRow, base: string, replies: Replies, now: real)
    requires Destination(item, row) == Some(base) && SeparatorFree(item.serialNumber)
    requires Queue(m.pending, PendingKey(item.serialNumber, base)) == []
    requires !Delivered(replies(|m.wire|))
    ensures var sent := SendItemLocation(m, item, row, replies, now);
            && sent.wire == m.wire + [Request(base + BatchPath, ApiKeyOf(row), [PointOf(item.location.value)])]
            && Queue(sent.pending, PendingKey(item.serialNumber, base)) == [PointOf(item.location.value)]
            && Synced(sent) && sent.lastSent == m.lastSent && sent.polling == m.polling
  {
    SendItemLocationEffect(m, item, row, replies, now);
    assert [] + [PointOf(item.location.value)] == [PointOf(item.location.value)];
  }

  /** The single `send_item_location` of the first cycle: one failed batch, the point kept. */
  lemma ScenarioSend(m: State)
    requires m == Initial(map[]).(polling := true)
    ensures var sent := SendItemLocation(m, Item("Tag", "ABCD", None, Some(Fix)), Row, ServerError, 0.0);
            && sent.wire == [Request("http://h/api/v1/gps/batch", "k", [PointOf(Fix)])]
            && Queue(sent.pending, "ABCD::http://h/") == [PointOf(Fix)]
            && Synced(sent) && sent.lastSent == map[] && sent.polling
  {
    var item := Item("Tag", "ABCD", None, Some(Fix));
    assert ReadItem(Record) == item by {
      ScenarioRead();
    }
    assert Destination(item, Row) == Some("http://h/") && SeparatorFree("ABCD") by {
      ScenarioDestination();
    }
    assert PendingKey("ABCD", "http://h/") == "ABCD::http://h/"
           && "http://h/" + BatchPath == "http://h/api/v1/gps/batch" by {
      ScenarioStrings();
    }
    assert m.wire == [] && m.pending == map[] && m.lastSent == map[] && m.polling;
    assert Queue(m.pending, "ABCD::http://h/") == [];
    assert !Delivered(ServerError(0));
    assert ApiKeyOf(Row) == "k";
    FailedFirstSend(m, item, Row, "http://h/", ServerError, 0.0);
  }

  /** The first poll is one `send_item_location` for the single row. */
  lemma ScenarioFirstCycle(m: State)
    requires m == Initial(map[]).(polling := true)
    ensures var item := Item("Tag", "ABCD", None, Some(Fix));
            Poll(m, Success([Record]), [Row], ServerError, 0.0)
            == SendItemLocation(m, item, Row, ServerError, 0.0).(lastItems := [item])
  {
    var item := Item("Tag", "ABCD", None, Some(Fix));
    ScenarioRead();
    assert LocationHasChanged([], item);
    assert MatchingRows([Row], "ABCD") == [Row];
    var sent := SendItemLocation(m, item, Row, ServerError, 0.0);
    assert [Row][1..] == [];
    assert SendToRows(sent, item, [], ServerError, 0.0) == sent;
    assert FanOut(m, item, [Row], ServerError, 0.0) == sent;
    assert Dispatch(m, [], [item], false, [Row], ServerError, 0.0) == sent;
  }

  /**
   * The first poll queues one point (the time stamp now in seconds) and
   * posts a batch of exactly that point; the 500 keeps it queued and saved.
   * The second poll of the same snapshot posts nothing: the point stays
   * queued until a new fix is appended under its key.
   */
  lemma FirstSightingThenServerError(m: State)
    requires m == Initial(map[]).(polling := true)
    ensures var first := Poll(m, Success([Record]), [Row], ServerError, 0.0);
            var second := Poll(first, Success([Record]), [Row], ServerError, 60.0);
            && first.wire == [Request("http://h/api/v1/gps/batch", "k", [PointOf(Fix)])]
            && Queue(first.pending, "ABCD::http://h/") == [PointOf(Fix)]
            && Synced(first)
            && first.lastSent == map[]
            && second == first
  {
    var item := Item("Tag", "ABCD", None, Some(Fix));
    var sent := SendItemLocation(m, item, Row, ServerError, 0.0);
    ScenarioSend(m);
    var first := Poll(m, Success([Record]), [Row], ServerError, 0.0);
    assert first == sent.(lastItems := [item]) by {
      ScenarioFirstCycle(m);
    }
    assert ReadItems([Record]) == first.lastItems && DistinctSerials(first.lastItems) by {
      ScenarioRead();
    }
    SameSnapshotDoesNotRetry(first, [Record], [Row], ServerError, 60.0);
  }
}

=== FILE: detector.dfy ===
/**
 * The change detector `location_has_changed`. Both variants of the monitor
 * carry the same code, so it is defined once here.
 */
module Detector {
  import opened Wrappers
  import opened Items

  /** `i` is the first index of `items` holding `serial`. */
  predicate IsFirstWithSerial(items: seq<Item>, i: int, serial: string) {
    && 0 <= i < |items|
    && items[i].serialNumber == serial
    && forall j :: 0 <= j < i ==> items[j].serialNumber != serial
  }

  /** No item of `items` holds `serial`. */
  predicate Unseen(items: seq<Item>, serial: string) {
    forall j :: 0 <= j < |items| ==> items[j].serialNumber != serial
  }

  /** Python's `next((x for x in items if x.serialNumber == serial), None)`, as an index. */
  function FindBySerial(items: seq<Item>, serial: string, from: nat): (r: Option<nat>)
    requires from <= |items|
    requires forall j :: 0 <= j < from ==> items[j].serialNumber != serial
    ensures r.Some? ==> IsFirstWithSerial(items, r.value, serial)
    ensures r.None? ==> Unseen(items, serial)
    decreases |items| - from
  {
    if from == |items| then None
    else if items[from].serialNumber == serial then Some(from)
    else FindBySerial(items, serial, from + 1)
  }

  /**
   * Two fixes denote different positions in the detector's sense: time
   * stamp, latitude or longitude differ. Accuracies and altitude are ignored.
   */
  predicate Moved(a: Location, b: Location) {
    a.timeStamp != b.timeStamp || a.latitude != b.latitude || a.longitude != b.longitude
  }

  /**
   * `location_has_changed`: compares `item` with the first item of the
   * previous snapshot `last` that has its serial.
   */
  function LocationHasChanged(last: seq<Item>, item: Item): (changed: bool)
    ensures Unseen(last, item.serialNumber) ==> changed
    ensures forall i :: IsFirstWithSerial(last, i, item.serialNumber) ==>
      (changed <==> last[i].location.Some? && item.location.Some? && Moved(last[i].location.value, item.location.value))
  {
    match FindBySerial(last, item.serialNumber, 0)
    case None => true
    case Some(i) =>
      var previous := last[i];
      if previous.location.None? || item.location.None? then false
      else
        var a, b := previous.location.value, item.location.value;
        a.timeStamp != b.timeStamp || a.latitude != b.latitude || a.longitude != b.longitude
  }

  /** A serial seen for the first time always counts as changed. */
  lemma FirstSightingIsChanged(last: seq<Item>, item: Item)
    requires Unseen(last, item.serialNumber)
    ensures LocationHasChanged(last, item)
  {
  }

  /** When the previous or the new item has no location, nothing has changed. */
  lemma MissingLocationIsUnchanged(last: seq<Item>, i: nat, item: Item)
    requires IsFirstWithSerial(last, i, item.serialNumber)
    requires last[i].location.None? || item.location.None?
    ensures !LocationHasChanged(last, item)
  {
  }

  /**
   * A fix that differs from the previous one only in horizontal accuracy,
   * vertical accuracy or altitude is not a change.
   */
  lemma AccuracyOnlyChangeIsUnchanged(last: seq<Item>, i: nat, item: Item, h: real, v: real, alt: real)
    requires IsFirstWithSerial(last, i, item.serialNumber)
    requires last[i].location.Some?
    requires item.location == Some(last[i].location.value.(horizontalAccuracy := h, verticalAccuracy := v, altitude := alt))
    ensures !LocationHasChanged(last, item)
  {
  }

  /** Serials are pairwise distinct. */
  predicate DistinctSerials(items: seq<Item>) {
    forall i, j :: 0 <= i < j < |items| ==> items[i].serialNumber != items[j].serialNumber
  }

  /** Reading the very same snapshot again reports no item as changed. */
  lemma SameSnapshotIsUnchanged(items: seq<Item>, i: nat)
    requires DistinctSerials(items)
    requires i < |items|
    ensures !LocationHasChanged(items, items[i])
  {
    assert IsFirstWithSerial(items, i, items[i].serialNumber);
  }

  /**
   * With a repeated serial, the detector compares against the FIRST previous
   * item holding it: the same snapshot read twice can still report a change.
   */
  lemma RepeatedSerialComparesWithFirst()
    ensures var a := Item("a", "S", None, Some(Location(1.0, 2.0, 3.0, 0.0, 0.0, 0.0)));
            var b := Item("b", "S", None, Some(Location(5.0, 2.0, 3.0, 0.0, 0.0, 0.0)));
            LocationHasChanged([a, b], b)
  {
    var a := Item("a", "S", None, Some(Location(1.0, 2.0, 3.0, 0.0, 0.0, 0.0)));
    var b := Item("b", "S", None, Some(Location(5.0, 2.0, 3.0, 0.0, 0.0, 0.0)));
    assert IsFirstWithSerial([a, b], 0, "S");
  }
}

=== FILE: grabber.dfy ===
/**
 * `ItemsDataMonitor` of AirTag-grabber.py, the earlier variant without a
 * queue: each changed item is posted once per matching row as a batch of
 * one point, and nothing is kept when the post fails.
 */
module Grabber {
  import opened Wrappers
  import opened Items
  import opened Detector

  /** The monitor's state; `wire` is every request handed to `requests.post` so far, oldest first. */
  datatype State = State(polling: bool, lastItems: seq<Item>, lastSent: map<string, real>, wire: seq<Request>)

  /**
   * One snapshot record as a `FindMyItem`: absent fields default to "",
   * `None` or 0.0, and the time stamp is copied without conversion.
   */
  function ReadItem(d: RawRecord): (item: Item)
    ensures item.location == Some(FixOf(d.location))
    ensures item.serialNumber == d.serialNumber.GetOr("")
    ensures item.name == d.name.GetOr("") && item.batteryStatus == d.batteryStatus
  {
    Item(d.name.GetOr(""), d.serialNumber.GetOr(""), d.batteryStatus, Some(FixOf(d.location)))
  }

  /** The items of a snapshot: one per record, in record order. */
  function ReadItems(records: seq<RawRecord>): (items: seq<Item>)
    ensures |items| == |records|
    ensures forall i :: 0 <= i < |records| ==> items[i] == ReadItem(records[i])
  {
    if |records| == 0 then [] else [ReadItem(records[0])] + ReadItems(records[1..])
  }

  /** The request a row makes for an item, if any: the URL as configured, a batch of one point. */
  function RowRequest(item: Item, row: ConfigRow): seq<Request> {
    if item.location.None? || ServerUrlOf(row) == "" then []
    else [Request(ServerUrlOf(row), ApiKeyOf(row), [PointOf(item.location.value)])]
  }

  /**
   * `send_item_location`: skip an item without location or a row without
   * server URL; otherwise post the single point. HTTP 200 stamps the
   * serial; any other outcome changes nothing and keeps nothing.
   */
  function SendItemLocation(m: State, item: Item, row: ConfigRow, replies: Replies, now: real): (r: State)
    ensures item.location.None? || ServerUrlOf(row) == "" ==> r == m
    ensures item.location.Some? && ServerUrlOf(row) != "" ==>
      && |r.wire| == |m.wire| + 1
      && r.wire[|m.wire|].url == ServerUrlOf(row)
      && |r.wire[|m.wire|].gpsData| == 1
      && LocationOf(r.wire[|m.wire|].gpsData[0]) == item.location.value
      && Stationary(r.wire[|m.wire|].gpsData[0])
      && r.lastSent == (if Delivered(replies(|m.wire|)) then m.lastSent[item.serialNumber := now] else m.lastSent)
    ensures r.wire == m.wire + RowRequest(item, row)
    ensures r.polling == m.polling && r.lastItems == m.lastItems
  {
    if item.location.None? || ServerUrlOf(row) == "" then m
    else
      var req := Request(ServerUrlOf(row), ApiKeyOf(row), [PointOf(item.location.value)]);
      var sent := m.(wire := m.wire + [req]);
      if Delivered(replies(|m.wire|)) then sent.(lastSent := m.lastSent[item.serialNumber := now]) else sent
  }

  /** `send_item_location` for each row in turn. */
  function SendToRows(m: State, item: Item, rows: seq<ConfigRow>, replies: Replies, now: real): (r: State)
    ensures r.polling == m.polling && r.lastItems == m.lastItems
    decreases |rows|
  {
    if |rows| == 0 then m
    else SendToRows(SendItemLocation(m, item, rows[0], replies, now), item, rows[1..], replies, now)
  }

  /** `send_item_location_to_all_configs`: every row whose serial matches, in config order. */
  function FanOut(m: State, item: Item, config: seq<ConfigRow>, replies: Replies, now: real): (r: State)
    ensures r.polling == m.polling && r.lastItems == m.lastItems
  {
    SendToRows(m, item, MatchingRows(config, item.serialNumber), replies, now)
  }

  /** The items of one cycle, each fanned out when it changed or when the cycle is forced. */
  function Dispatch(m: State, last: seq<Item>, items: seq<Item>, force: bool,
                    config: seq<ConfigRow>, replies: Replies, now: real): (r: State)
    ensures r.polling == m.polling && r.lastItems == m.lastItems
    decreases |items|
  {
    if |items| == 0 then m
    else
      var next := if LocationHasChanged(last, items[0]) || force
                  then FanOut(m, items[0], config, replies, now) else m;
      Dispatch(next, last, items[1..], force, config, replies, now)
  }

  /** `check_items_data`: a failed read changes nothing; otherwise dispatch, then replace the snapshot. */
  function CheckItemsData(m: State, read: Result<seq<RawRecord>, ReadError>, force: bool,
                          config: seq<ConfigRow>, replies: Replies, now: real): (r: State)
    ensures read.Failure? ==> r == m
    ensures read.Success? ==> r.lastItems == ReadItems(read.value)
    ensures r.polling == m.polling
  {
    match read
    case Failure(_) => m
    case Success(records) =>
      var items := ReadItems(records);
      Dispatch(m, m.lastItems, items, force, config, replies, now).(lastItems := items)
  }

  /** `poll` without the timer: a cycle runs only while polling is on, and never forced. */
  function Poll(m: State, read: Result<seq<RawRecord>, ReadError>,
                config: seq<ConfigRow>, replies: Replies, now: real): (r: State)
    ensures !m.polling || read.Failure? ==> r == m
    ensures m.polling && read.Success? ==> r.lastItems == ReadItems(read.value)
    ensures r.polling == m.polling
    ensures m.polling ==> r == CheckItemsData(m, read, false, config, replies, now)
  {
    if !m.polling then m else CheckItemsData(m, read, false, config, replies, now)
  }

  /** `start_polling`: switch polling on and run the first cycle at once. */
  function StartPolling(m: State, read: Result<seq<RawRecord>, ReadError>,
                        config: seq<ConfigRow>, replies: Replies, now: real): (r: State)
    ensures r.polling
    ensures read.Failure? ==> r == m.(polling := true)
    ensures read.Success? ==> r.lastItems == ReadItems(read.value)
    ensures r == CheckItemsData(m.(polling := true), read, false, config, replies, now)
  {
    Poll(m.(polling := true), read, config, replies, now)
  }

  /** `stop_polling`: switch polling off; nothing else changes. */
  function StopPolling(m: State): (r: State)
    ensures !r.polling && r.(polling := m.polling) == m
  {
    m.(polling := false)
  }

  /** `force_refresh`: a forced cycle, whether or not polling is on. */
  function ForceRefresh(m: State, read: Result<seq<RawRecord>, ReadError>,
                        config: seq<ConfigRow>, replies: Replies, now: real): (r: State)
    ensures r.polling == m.polling
    ensures read.Failure? ==> r == m
    ensures read.Success? ==> r.lastItems == ReadItems(read.value)
  {
    CheckItemsData(m, read, true, config, replies, now)
  }

  /**
   * Reference definition of a fan-out's traffic: for every row of `config`
   * that matches the item and has a server URL, in config order, one
   * request to that URL carrying the item's fix as its only point.
   */
  function ExpectedRequests(item: Item, config: seq<ConfigRow>): seq<Request> {
    if |config| == 0 then []
    else
      (if Matches(config[0], item.serialNumber) then RowRequest(item, config[0]) else [])
      + ExpectedRequests(item, config[1..])
  }

  lemma {:induction false} SendToRowsRequests(m: State, item: Item, rows: seq<ConfigRow>, replies: Replies, now: real)
    requires forall i :: 0 <= i < |rows| ==> Matches(rows[i], item.serialNumber)
    ensures SendToRows(m, item, rows, replies, now).wire == m.wire + ExpectedRequests(item, rows)
    decreases |rows|
  {
    if |rows| > 0 {
      var m1 := SendItemLocation(m, item, rows[0], replies, now);
      SendToRowsRequests(m1, item, rows[1..], replies, now);
      assert m.wire + RowRequest(item, rows[0]) + ExpectedRequests(item, rows[1..])
             == m.wire + ExpectedRequests(item, rows);
    }
  }

  lemma {:induction false} ExpectedRequestsOfMatching(item: Item, config: seq<ConfigRow>)
    ensures ExpectedRequests(item, MatchingRows(config, item.serialNumber)) == ExpectedRequests(item, config)
    decreases |config|
  {
    if |config| > 0 {
      ExpectedRequestsOfMatching(item, config[1..]);
      if Matches(config[0], item.serialNumber) {
        assert MatchingRows(config, item.serialNumber)[1..] == MatchingRows(config[1..], item.serialNumber);
      }
    }
  }

  /**
   * `send_item_location_to_all_configs` posts exactly the expected
   * requests: one per matching row with a server URL, in config order,
   * none when no row matches.
   */
  lemma FanOutRequests(m: State, item: Item, config: seq<ConfigRow>, replies: Replies, now: real)
    ensures FanOut(m, item, config, replies, now).wire == m.wire + ExpectedRequests(item, config)
  {
    SendToRowsRequests(m, item, MatchingRows(config, item.serialNumber), replies, now);
    ExpectedRequestsOfMatching(item, config);
  }

  /** A request carries the item's fix as its only point, with no motion, to a non-empty URL. */
  predicate CarriesOnlyFix(item: Item, req: Request) {
    && item.location.Some?
    && |req.gpsData| == 1
    && LocationOf(req.gpsData[0]) == item.location.value
    && Stationary(req.gpsData[0])
    && req.url != ""
  }

  /** Every request of a fan-out carries exactly one point: the item's fix. */
  lemma {:induction false} ExpectedRequestsCarryOnePoint(item: Item, config: seq<ConfigRow>)
    ensures forall req :: req in ExpectedRequests(item, config) ==> CarriesOnlyFix(item, req)
    decreases |config|
  {
    if |config| > 0 {
      ExpectedRequestsCarryOnePoint(item, config[1..]);
    }
  }

  lemma {:induction false} QuietDispatch(m: State, last: seq<Item>, items: seq<Item>,
                                         config: seq<ConfigRow>, replies: Replies, now: real)
    requires forall i :: 0 <= i < |items| ==> !LocationHasChanged(last, items[i])
    ensures Dispatch(m, last, items, false, config, replies, now) == m
    decreases |items|
  {
    if |items| > 0 {
      QuietDispatch(m, last, items[1..], config, replies, now);
    }
  }

  /**
   * Nothing is kept for retry: polling the same snapshot again (serials
   * distinct) sends nothing, whether or not the earlier posts failed.
   */
  lemma SameSnapshotSendsNothing(m: State, records: seq<RawRecord>,
                                 config: seq<ConfigRow>, replies: Replies, now: real)
    requires ReadItems(records) == m.lastItems && DistinctSerials(m.lastItems)
    ensures Poll(m, Success(records), config, replies, now) == m
  {
    forall i | 0 <= i < |records|
      ensures !LocationHasChanged(m.lastItems, ReadItems(records)[i])
    {
      SameSnapshotIsUnchanged(m.lastItems, i);
    }
    QuietDispatch(m, m.lastItems, ReadItems(records), config, replies, now);
  }

  /** Any non-empty URL is used as it is: there is no scheme check and no path suffix. */
  lemma NoSchemeCheck(m: State, item: Item, apiKey: string, replies: Replies, now: real)
    requires item.location.Some?
    ensures var row := ConfigRow(Some(item.serialNumber), Some("ftp://x"), Some(apiKey));
            SendItemLocation(m, item, row, replies, now).wire
            == m.wire + [Request("ftp://x", apiKey, [PointOf(item.location.value)])]
  {
  }
}

=== FILE: items.dfy ===
/**
 * The data both variants of the monitor share: decoded snapshot records,
 * tracked items with their location fix, configuration rows, the GPS point
 * sent to a server, and the HTTP request and its outcome.
 *
 * Python floats are modelled as exact reals; comparisons are exact, as the
 * source's `!=` is.
 */
module Items {
  import opened Wrappers

  /** `ItemLocation`: one location fix. */
  datatype Location = Location(
    latitude: real,
    longitude: real,
    timeStamp: real,
    horizontalAccuracy: real,
    verticalAccuracy: real,
    altitude: real)

  /** `FindMyItem`: one tracked item of a snapshot. */
  datatype Item = Item(
    name: string,
    serialNumber: string,
    batteryStatus: Option<string>,
    location: Option<Location>)

  /** The `location` object of one record of the snapshot file; `None` marks an absent key. */
  datatype RawLocation = RawLocation(
    latitude: Option<real>,
    longitude: Option<real>,
    timeStamp: Option<real>,
    horizontalAccuracy: Option<real>,
    verticalAccuracy: Option<real>,
    altitude: Option<real>)

  /** One already-decoded record of the snapshot file; `None` marks an absent key. */
  datatype RawRecord = RawRecord(
    name: Option<string>,
    serialNumber: Option<string>,
    batteryStatus: Option<string>,
    location: Option<RawLocation>)

  /** Why the snapshot file could not be read or decoded. */
  datatype ReadError = Unreadable | Malformed

  /** One row of `tag_configs`; `None` marks an absent key. */
  datatype ConfigRow = ConfigRow(serial: Option<string>, serverUrl: Option<string>, apiKey: Option<string>)

  /** One entry of the `gps_data` array sent to a server. */
  datatype Point = Point(
    timestamp: real,
    latitude: real,
    longitude: real,
    horizontalAccuracy: real,
    altitude: real,
    verticalAccuracy: real,
    heading: int,
    headingAccuracy: int,
    speed: int,
    speedAccuracy: int)

  /**
   * One POST: the URL before the `api_key` query parameter is attached, the
   * key, and the `gps_data` array of the JSON body.
   */
  datatype Request = Request(url: string, apiKey: string, gpsData: seq<Point>)

  /** What `requests.post` gives back: a status code, or an exception. */
  datatype Outcome = Status(code: int) | TransportError

  /** The server's answer, by position of the request among all requests ever sent. */
  type Replies = nat -> Outcome

  /** Only HTTP 200 counts as a delivery. */
  predicate Delivered(o: Outcome) {
    o.Status? && o.code == 200
  }

  /** Absent numeric fields of a location default to 0.0. */
  function NumberOr0(f: Option<real>): real {
    f.GetOr(0.0)
  }

  /**
   * The `ItemLocation` built from a raw location object, every absent field
   * 0.0 and the time stamp copied as it is; an absent object reads as `{}`.
   */
  function FixOf(raw: Option<RawLocation>): (loc: Location)
    ensures raw.None? ==> loc == Location(0.0, 0.0, 0.0, 0.0, 0.0, 0.0)
    ensures raw.Some? && raw.value.latitude.Some? ==> loc.latitude == raw.value.latitude.value
    ensures raw.Some? && raw.value.timeStamp.Some? ==> loc.timeStamp == raw.value.timeStamp.value
  {
    var d := raw.GetOr(RawLocation(None, None, None, None, None, None));
    Location(
      NumberOr0(d.latitude),
      NumberOr0(d.longitude),
      NumberOr0(d.timeStamp),
      NumberOr0(d.horizontalAccuracy),
      NumberOr0(d.verticalAccuracy),
      NumberOr0(d.altitude))
  }

  /** The fix a point carries (the inverse of `PointOf`). */
  function LocationOf(p: Point): Location {
    Location(p.latitude, p.longitude, p.timestamp, p.horizontalAccuracy, p.verticalAccuracy, p.altitude)
  }

  /** A point reports no motion: heading, speed and their accuracies are 0. */
  predicate Stationary(p: Point) {
    p.heading == 0 && p.headingAccuracy == 0 && p.speed == 0 && p.speedAccuracy == 0
  }

  /** The `gps_data` entry for a fix. */
  function PointOf(loc: Location): (p: Point)
    ensures LocationOf(p) == loc
    ensures Stationary(p)
  {
    Point(loc.timeStamp, loc.latitude, loc.longitude, loc.horizontalAccuracy, loc.altitude, loc.verticalAccuracy,
          0, 0, 0, 0)
  }

  /** `row.get("serial") == item_serial`: a row without a serial matches nothing. */
  predicate Matches(row: ConfigRow, serial: string) {
    row.serial == Some(serial)
  }

  /** The rows of `config` that match `serial`, in config order. */
  function MatchingRows(config: seq<ConfigRow>, serial: string): (rows: seq<ConfigRow>)
    ensures |rows| <= |config|
    ensures forall i :: 0 <= i < |rows| ==> Matches(rows[i], serial) && rows[i] in config
    ensures forall row :: row in config && Matches(row, serial) ==> row in rows
    ensures forall row :: multiset(rows)[row] == if Matches(row, serial) then multiset(config)[row] else 0
  {
    if |config| == 0 then []
    else
      assert config == [config[0]] + config[1..];
      if Matches(config[0], serial) then [config[0]] + MatchingRows(config[1..], serial)
      else MatchingRows(config[1..], serial)
  }

  /**
   * The filter works row by row: the matching rows of two concatenated
   * configurations are those of the first followed by those of the second,
   * so order and repetitions are kept.
   */
  lemma {:induction false} MatchingRowsAppend(a: seq<ConfigRow>, b: seq<ConfigRow>, serial: string)
    ensures MatchingRows(a + b, serial) == MatchingRows(a, serial) + MatchingRows(b, serial)
    decreases |a|
  {
    if |a| == 0 {
      assert a + b == b;
    } else {
      var head := if Matches(a[0], serial) then [a[0]] else [];
      assert a + b == [a[0]] + (a[1..] + b) && a == [a[0]] + a[1..];
      MatchingRowsCons(a[0], a[1..] + b, serial);
      MatchingRowsCons(a[0], a[1..], serial);
      MatchingRowsAppend(a[1..], b, serial);
      ConcatAssociative(head, MatchingRows(a[1..], serial), MatchingRows(b, serial));
    }
  }

  lemma ConcatAssociative<T>(x: seq<T>, y: seq<T>, z: seq<T>)
    ensures x + (y + z) == (x + y) + z
  {
  }

  /** The filter on a configuration that starts with `row`. */
  lemma MatchingRowsCons(row: ConfigRow, rest: seq<ConfigRow>, serial: string)
    ensures MatchingRows([row] + rest, serial) == (if Matches(row, serial) then [row] else []) + MatchingRows(rest, serial)
  {
    assert ([row] + rest)[0] == row && ([row] + rest)[1..] == rest;
  }

  /** A single row is kept exactly when it matches. */
  lemma MatchingRowsOfOne(row: ConfigRow, serial: string)
    ensures MatchingRows([row], serial) == if Matches(row, serial) then [row] else []
  {
    assert [row][1..] == [];
  }

  /** `row.get("server_url", "")`. */
  function ServerUrlOf(row: ConfigRow): string {
    row.serverUrl.GetOr("")
  }

  /** `row.get("api_key", "")`. */
  function ApiKeyOf(row: ConfigRow): string {
    row.apiKey.GetOr("")
  }
}

=== FILE: pending.dfy ===
/**
 * The pending-delivery queue of core.py: the monitor's state, the key and
 * URL construction, appending a point, and the batched delivery attempt
 * `attempt_send_pending`.
 */
module Pending {
  import opened Wrappers
  import opened Text
  import opened Items

  /** The path every batch is posted to, below the normalised server URL. */
  const BatchPath: string := "api/v1/gps/batch"

  /**
   * The monitor's state. `persisted` is the content of the pending-data
   * file: it changes only where the source calls `save_pending_data`.
   * `wire` is every request handed to `requests.post` so far, oldest first; the server's reply
   * to a request is looked up by its position in `wire`.
   */
  datatype State = State(
    polling: bool,
    lastItems: seq<Item>,
    pending: map<string, seq<Point>>,
    lastSent: map<string, real>,
    persisted: map<string, seq<Point>>,
    wire: seq<Request>)

  /** The points queued under `key`; a missing key is an empty queue. */
  function Queue(pending: map<string, seq<Point>>, key: string): seq<Point> {
    if key in pending then pending[key] else []
  }

  /** The file holds exactly the in-memory queue. */
  predicate Synced(m: State) {
    m.persisted == m.pending
  }

  /**
   * From `m` to `r` the file was either not written (and the queue did not
   * change) or written last after the final change of the queue.
   */
  predicate SavedAfterEveryChange(m: State, r: State) {
    (r.persisted == m.persisted && r.pending == m.pending) || Synced(r)
  }

  /** The server URL with `/` appended unless it already ends in one. */
  function WithTrailingSlash(url: string): (r: string)
    ensures EndsWith(r, "/")
    ensures StartsWith(r, url) && |r| <= |url| + 1
    ensures EndsWith(url, "/") ==> r == url
  {
    if EndsWith(url, "/") then url else url + "/"
  }

  /** Normalising twice is normalising once. */
  lemma WithTrailingSlashIdempotent(url: string)
    ensures WithTrailingSlash(WithTrailingSlash(url)) == WithTrailingSlash(url)
  {
  }

  /** The URL a batch is posted to. */
  function BatchUrl(base: string): string {
    WithTrailingSlash(base) + BatchPath
  }

  /**
   * Appending the path to an already normalised base neither doubles nor
   * drops a slash: exactly one `/` separates base and path.
   */
  lemma BatchUrlNoDoubledSlash(url: string)
    ensures var base := WithTrailingSlash(url);
            BatchUrl(base) == base + BatchPath && base[|base| - 1] == '/' && BatchPath[0] != '/'
  {
  }

  predicate HasWebScheme(url: string) {
    StartsWith(url, "http://") || StartsWith(url, "https://")
  }

  /**
   * Appending the batch path does not change the answer of a scheme prefix
   * test. The scheme ends in "//" and contains no 'a', while the path starts
   * with 'a', so the path's first character can never be matched against a
   * scheme character. A URL too short to hold the scheme therefore cannot
   * gain it by the suffix.
   */
  lemma SchemePrefix(url: string, scheme: string)
    requires url != "" && |scheme| >= 7 && scheme[|scheme| - 1] == '/' && scheme[|scheme| - 2] == '/'
    requires forall i :: 0 <= i < |scheme| ==> scheme[i] != 'a'
    ensures StartsWith(BatchUrl(url), scheme) <==> StartsWith(url, scheme)
  {
    var t := BatchUrl(url);
    var base := WithTrailingSlash(url);
    assert t == base + BatchPath;
    assert BatchPath[0] == 'a';
    if |url| >= |scheme| {
      assert t[..|scheme|] == url[..|scheme|];
    }
  }

  /**
   * The scheme test, made on the URL with path, accepts exactly the
   * configured URLs that start with `http://` or `https://`.
   */
  lemma SchemeCheckSeesConfiguredUrl(url: string)
    requires url != ""
    ensures HasWebScheme(BatchUrl(url)) <==> HasWebScheme(url)
  {
    SchemePrefix(url, "http://");
    SchemePrefix(url, "https://");
  }

  /** `f"{serial}::{server_url}"`. */
  function PendingKey(serial: string, base: string): string {
    serial + Separator + base
  }

  /**
   * Splitting a key at its first `::` gives back the serial and the URL,
   * provided the serial holds no `::` and does not end in `:`.
   */
  lemma KeyRoundTrip(serial: string, base: string)
    requires SeparatorFree(serial)
    ensures SplitFirst(PendingKey(serial, base)) == Some((serial, base))
  {
    SplitJoin(serial, base);
  }

  /**
   * A serial ending in `:` does not survive the round trip: the key of
   * serial "A:" and URL "http://h/" splits into "A" and ":http://h/", and
   * the batch URL built from that tail has no http(s) scheme.
   */
  lemma ColonSerialMisroutes()
    ensures SplitFirst(PendingKey("A:", "http://h/")) == Some(("A", ":http://h/"))
    ensures !HasWebScheme(BatchUrl(":http://h/"))
  {
    var s := PendingKey("A:", "http://h/");
    assert s == "A:::http://h/";
    assert !SeparatorAt(s, 0) && SeparatorAt(s, 1);
    assert FindSeparatorFrom(s, 0) == Some(1);
    assert s[..1] == "A" && s[3..] == ":http://h/";
    MisroutedUrlHasNoScheme();
  }

  /** The batch URL built from the tail ":http://h/" starts with ':'. */
  lemma MisroutedUrlHasNoScheme()
    ensures !HasWebScheme(BatchUrl(":http://h/"))
  {
    assert BatchUrl(":http://h/")[0] == ':';
  }

  /** Append `p` to the queue under `key`, then save the queue. */
  function Enqueue(m: State, key: string, p: Point): (r: State)
    ensures Queue(r.pending, key) == Queue(m.pending, key) + [p]
    ensures forall k :: k != key ==> Queue(r.pending, k) == Queue(m.pending, k)
    ensures r.pending.Keys == m.pending.Keys + {key}
    ensures Synced(r)
    ensures r.polling == m.polling && r.lastItems == m.lastItems && r.lastSent == m.lastSent && r.wire == m.wire
  {
    var pending := m.pending[key := Queue(m.pending, key) + [p]];
    m.(pending := pending, persisted := pending)
  }

  /**
   * `attempt_send_pending`: post every point queued under `key` in one
   * batch; on HTTP 200 empty that queue, stamp the serial and save.
   */
  function AttemptSendPending(m: State, key: string, apiKey: string, replies: Replies, now: real): (r: State)
    ensures Queue(m.pending, key) == [] ==> r == m
    ensures SplitFirst(key).None? ==> r == m
    ensures r.polling == m.polling && r.lastItems == m.lastItems
    ensures r.pending.Keys == m.pending.Keys
    ensures SavedAfterEveryChange(m, r)
    ensures Queue(m.pending, key) != [] && SplitFirst(key).Some? ==>
      var (serial, base) := SplitFirst(key).value;
      && r.wire == m.wire + [Request(BatchUrl(base), apiKey, Queue(m.pending, key))]
      && (Delivered(replies(|m.wire|)) ==>
            && Queue(r.pending, key) == []
            && (forall k :: k != key ==> Queue(r.pending, k) == Queue(m.pending, k))
            && r.lastSent == m.lastSent[serial := now]
            && Synced(r))
      && (!Delivered(replies(|m.wire|)) ==>
            r.pending == m.pending && r.lastSent == m.lastSent && r.persisted == m.persisted)
  {
    if key !in m.pending || m.pending[key] == [] then m
    else match SplitFirst(key)
      case None => m
      case Some((serial, base)) =>
        var sent := m.(wire := m.wire + [Request(BatchUrl(base), apiKey, m.pending[key])]);
        if Delivered(replies(|m.wire|)) then
          var pending := m.pending[key := []];
          sent.(lastSent := m.lastSent[serial := now], pending := pending, persisted := pending)
        else sent
  }

  /**
   * Clearing is idempotent: once a batch under `key` was delivered, a second
   * attempt on that key posts nothing and changes nothing, whatever the
   * server would answer.
   */
  lemma ClearIsIdempotent(m: State, key: string, apiKey: string, replies: Replies, now: real,
                          apiKey2: string, replies2: Replies, now2: real)
    requires Delivered(replies(|m.wire|))
    ensures var r := AttemptSendPending(m, key, apiKey, replies, now);
            AttemptSendPending(r, key, apiKey2, replies2, now2) == r
  {
  }
}

=== FILE: text.dfy ===
/**
 * String helpers used to build and take apart pending-queue keys and
 * server URLs: prefix/suffix tests and Python's `str.split("::", 1)`.
 */
module Text {
  import opened Wrappers

  /** Python's `s.startswith(prefix)`. */
  predicate StartsWith(s: string, prefix: string) {
    |prefix| <= |s| && s[..|prefix|] == prefix
  }

  /** Python's `s.endswith(suffix)`. */
  predicate EndsWith(s: string, suffix: string) {
    |suffix| <= |s| && s[|s| - |suffix|..] == suffix
  }

  /** The separator between serial and server URL in a pending-queue key. */
  const Separator: string := "::"

  /** A separator "::" starts at index `i` of `s`. */
  predicate SeparatorAt(s: string, i: int) {
    0 <= i && i + 1 < |s| && s[i] == ':' && s[i + 1] == ':'
  }

  predicate ContainsSeparator(s: string) {
    exists i :: 0 <= i < |s| && SeparatorAt(s, i)
  }

  /**
   * `a` can stand in front of a separator without merging into it: it holds
   * no "::" and does not end in ':'. Exactly these prefixes are recovered by
   * splitting `a + "::" + b` at the first separator.
   */
  predicate SeparatorFree(a: string) {
    !ContainsSeparator(a + [':'])
  }

  /** Index of the first separator of `s` at or after `from`. */
  function FindSeparatorFrom(s: string, from: nat): (r: Option<nat>)
    ensures r.Some? ==> from <= r.value && SeparatorAt(s, r.value)
    ensures r.Some? ==> forall j :: from <= j < r.value ==> !SeparatorAt(s, j)
    ensures r.None? ==> forall j :: from <= j ==> !SeparatorAt(s, j)
    decreases |s| - from
  {
    if from + 1 >= |s| then None
    else if s[from] == ':' && s[from + 1] == ':' then Some(from)
    else FindSeparatorFrom(s, from + 1)
  }

  /**
   * Python's `s.split("::", 1)`: two parts around the first separator, or
   * `None` where Python returns a single part.
   */
  function SplitFirst(s: string): (r: Option<(string, string)>)
    ensures r.None? <==> !ContainsSeparator(s)
    ensures r.Some? ==> s == r.value.0 + Separator + r.value.1
    ensures r.Some? ==> SeparatorFree(r.value.0)
  {
    match FindSeparatorFrom(s, 0)
    case None => None
    case Some(i) =>
      var head := s[..i];
      assert s == head + Separator + s[i + 2..];
      assert forall j :: SeparatorAt(head + [':'], j) ==> SeparatorAt(s, j) && j < i;
      Some((head, s[i + 2..]))
  }

  /** Joining at a separator and splitting at the first one are inverse. */
  lemma {:induction false} SplitJoin(a: string, b: string)
    requires SeparatorFree(a)
    ensures SplitFirst(a + Separator + b) == Some((a, b))
  {
    var s := a + Separator + b;
    assert SeparatorAt(s, |a|);
    forall j | 0 <= j < |a|
      ensures !SeparatorAt(s, j)
    {
      assert s[j] == (a + [':'])[j] && s[j + 1] == (a + [':'])[j + 1];
      assert !SeparatorAt(a + [':'], j);
    }
    var r := FindSeparatorFrom(s, 0);
    assert r == Some(|a|);
    assert s[..|a|] == a;
    assert s[|a| + 2..] == b;
  }

  /** Joining with a separator always leaves something to split at. */
  lemma JoinedHasSeparator(a: string, b: string)
    ensures SplitFirst(a + Separator + b).Some?
  {
    assert SeparatorAt(a + Separator + b, |a|);
  }
}

=== FILE: variants.dfy ===
/**
 * Where the two variants of the monitor part ways: the unit of the time
 * stamp, the URL a point is posted to, and the scheme check.
 */
module Variants {
  import opened Wrappers
  import opened Items
  import opened Pending
  import Core
  import Grabber

  /**
   * The same record gives the same item in both variants except for the
   * time stamp: core.py's is the raw value divided by 1000, the earlier
   * variant's is the raw value itself.
   */
  lemma TimestampUnitsDiffer(d: RawRecord)
    ensures var c := Core.ReadItem(d);
            var g := Grabber.ReadItem(d);
            && c.location.value.timeStamp * 1000.0 == g.location.value.timeStamp
            && c == g.(location := Some(g.location.value.(timeStamp := c.location.value.timeStamp)))
  {
  }

  /**
   * A row whose URL has no http(s) scheme is skipped by core.py but handed
   * to `requests.post` unchanged by the earlier variant.
   */
  lemma OnlyCoreChecksScheme(cm: Pending.State, gm: Grabber.State, item: Item, apiKey: string,
                             replies: Replies, now: real)
    requires item.location.Some?
    ensures var row := ConfigRow(Some(item.serialNumber), Some("ftp://x"), Some(apiKey));
            && Core.SendItemLocation(cm, item, row, replies, now) == cm
            && Grabber.SendItemLocation(gm, item, row, replies, now).wire
               == gm.wire + [Request("ftp://x", apiKey, [PointOf(item.location.value)])]
  {
    var row := ConfigRow(Some(item.serialNumber), Some("ftp://x"), Some(apiKey));
    Core.DestinationSkips(item, row);
    assert !HasWebScheme("ftp://x") by {
      assert "ftp://x"[..7] != "http://";
    }
  }
}

=== FILE: wrappers.dfy ===
/** Option and Result, the two failure-carrying wrappers the model needs. */
module Wrappers {

  /** A value that may be absent: a missing dictionary key or a `None`. */
  datatype Option<+T> = None | Some(value: T) {

    /** The wrapped value, or `default` when absent (Python's `d.get(k, default)`). */
    function GetOr(default: T): T {
      match this
      case Some(v) => v
      case None => default
    }
  }

  /** The outcome of an operation that can fail with an error value. */
  datatype Result<+R, +E> = Success(value: R) | Failure(error: E)
}
